=== FILE: README.md ===
# SafeVault: input screen and endpoint gate, in Dafny

SafeVault is a small ASP.NET web service. It seeds two accounts (`admin` in role
Admin, `user` in role User). It exposes a `POST /login` endpoint and four `GET`
endpoints, each gated by a different authorization rule. Before any credential
check, the login endpoint screens both form fields with a denylist validator.

This project models the two parts of the service that are its own logic:

- `validation_helpers.dfy`, module `ValidationHelpers`. This models
  `ValidationHelpers.IsValidInput`. A field is rejected when it is null or
  empty, when the SQL-injection regex `'|;|--|/\*|\*/|xp_` matches it, or when
  the tag regex `<.*?>` matches it. Each regex appears twice. A ghost predicate
  says where a match is (`SqlPatternOccurs`, `TagOccurs`). A left-to-right scan
  (`SqlPatternMatches`, and `TagPatternScan`, one pass with a pending-`<` flag)
  gives the same verdict as `Regex.IsMatch` on that pattern; it does not follow
  the backtracking engine's steps. The scan is proved equal to the predicate. Two details of
  .NET regexes are kept:
  - matching is ordinal, so `xp_` is case-sensitive;
  - `.` does not match a line feed, so `<.*?>` needs a `<` followed later by a
    `>` on the same line.
- `program.dfy`, module `Program`. This models three parts of `Program.cs`:
  - the `/login` handler's branching. The sign-in manager is a function
    parameter. The outcome records whether the handler got as far as calling it.
  - the two named policies and the route table that binds each path to no
    policy, the default policy or a named policy.
  - the response that a caller in a given state (signed in or not, and a role
    set) gets from each `GET` path. A denied request gets 404, which is what the
    integration tests observe and what an unmapped path also gets.

## Model

| member | source | states |
|---|---|---|
| `ValidationHelpers.IsValidInput` | SafeVault/ValidationHelpers.cs:8-28 | A field is accepted iff it is non-null, non-empty, and neither the SQL pattern nor the tag pattern occurs in it |
| `ValidationHelpers.MatchesAnyAtStart` | SafeVault/ValidationHelpers.cs:16 | An alternation matches at a position iff one of its alternatives occurs there |
| `ValidationHelpers.SqlPatternMatches` | SafeVault/ValidationHelpers.cs:16 | Scanning every start position finds a match iff one of `'`, `;`, `--`, `/*`, `*/`, `xp_` is a substring of the input |
| `ValidationHelpers.TagPatternScan` | SafeVault/ValidationHelpers.cs:22 | The one-pass scan with a "pending `<`" flag reports a match iff a `<`…`>` pair with no line feed between occurs, or the flag is set and a `>` comes before the first line feed |
| `ValidationHelpers.TagPatternMatches` | SafeVault/ValidationHelpers.cs:22 | `<.*?>` matches iff some `<` at i and `>` at j > i have no `'\n'` strictly between them |
| `ValidationHelpers.NullOrEmptyRejected` | SafeVault/ValidationHelpers.cs:10-13 | Null and the empty string are rejected |
| `ValidationHelpers.QuoteOrSemicolonRejected` | SafeVault/ValidationHelpers.cs:16-19 | Any input holding `'` or `;` at some index matches the SQL pattern and is rejected |
| `ValidationHelpers.SqlTokenRejected` | SafeVault/ValidationHelpers.cs:16-19 | Any input in which one of the six SQL alternatives occurs is rejected |
| `ValidationHelpers.TagRejected` | SafeVault/ValidationHelpers.cs:22-25 | Any input with a `<` at i and a `>` at j > i and no line feed between them is rejected |
| `ValidationHelpers.SqlMatchNeedsLeadCharacter` | SafeVault/ValidationHelpers.cs:16 | A match of the SQL pattern implies the input holds one of `'`, `;`, `-`, `/`, `*`, `x` |
| `ValidationHelpers.TagMatchNeedsBrackets` | SafeVault/ValidationHelpers.cs:22 | A match of the tag pattern implies the input holds both `<` and `>` |
| `ValidationHelpers.PlainFieldAccepted` | SafeVault/ValidationHelpers.cs:8-28 | A non-empty input with no `<` and none of the six SQL lead characters is accepted |
| `ValidationHelpers.RejectionSurvivesExtension` | SafeVault/ValidationHelpers.cs:16-25 | If either pattern occurs in s, every string having s as a substring is rejected |
| `ValidationHelpers.ExtendedProcedurePrefixIsCaseSensitive` | SafeVault/ValidationHelpers.cs:16 | `xp_` is rejected while `XP_` is accepted |
| `ValidationHelpers.LineFeedBreaksTag` | SafeVault/ValidationHelpers.cs:22 | `<`, line feed, `>` is accepted, because `.` does not match a line feed |
| `ValidationHelpers.UnmatchedBracketsAccepted` | SafeVault/ValidationHelpers.cs:22 | An unclosed `<` (`a<b`) and a `>` before a `<` (`a>b<c`) are accepted |
| `ValidationHelpers.SqlInjectionSampleRejected` | SafeVaultTests/TestValidationHelpers.cs:11-13 | `'; DROP TABLE Users; --` matches the SQL pattern and is rejected |
| `ValidationHelpers.XssSampleRejected` | SafeVaultTests/TestValidationHelpers.cs:20-22 | `<script>alert('XSS');</script>` matches both patterns and is rejected |
| `Program.Login` | SafeVault/Program.cs:64-84 | Sign-in is attempted iff both fields are non-empty and match neither pattern; otherwise 400 "Invalid input."; after an attempt, 200 "Login successful" on success and 401 on failure |
| `Program.InvalidInputShortCircuits` | SafeVault/Program.cs:71-74 | A rejected field gives 400 without calling sign-in, and the outcome is the same for every sign-in manager |
| `Program.LoginStatus` | SafeVault/Program.cs:71-83 | Login gives 200 iff both fields validate and sign-in succeeds, and 401 iff both validate and sign-in fails |
| `Program.InjectedUsernameRejected` | SafeVault/Program.cs:71-74 | The username `'; DROP TABLE Users; --` gives 400 "Invalid input." for every password and sign-in manager |
| `Program.RoleName` | SafeVault/Program.cs:27 | The table binding each role to the name the service creates it under and the policies require: Admin to "Admin", User to "User" |
| `Program.NamedPolicy` | SafeVault/Program.cs:15-17 | Only "UserRole" and "AdminRole" are registered, and the policy named R + "Role" requires role R |
| `Program.Path` | SafeVault/Program.cs:86-106 | The table binding each GET endpoint to the path its MapGet call maps (`/public`, `/authenticated`, `/user`, `/admin`); none of them equals the POST-only `/login` in any letter case |
| `Program.Body` | SafeVault/Program.cs:86-106 | The table binding each GET endpoint to the text its handler returns |
| `Program.GuardOf` | SafeVault/Program.cs:86-106 | The table binding each GET endpoint to its guard: none for /public, `RequireAuthorization()` (the default policy) for /authenticated, the policy "UserRole" for /user and "AdminRole" for /admin |
| `Program.RouteOf` | SafeVault/Program.cs:86-106 | A path that equals a mapped path up to ASCII letter case gives the one route mapped there, and any other path gives no route |
| `Program.RouteOfIgnoresCase` | SafeVault/Program.cs:86-106 | Each mapped path, and every spelling of it that differs only in letter case, reaches that path's endpoint |
| `Program.RouteRequirement` | SafeVault/Program.cs:86-106 | /public requires nothing, /authenticated requires an authenticated user, /user requires role User and /admin requires role Admin; each route has exactly one requirement |
| `Program.Authorize` | SafeVault/Program.cs:15-17 | An unauthenticated caller is denied by every requirement except none; an authenticated caller is denied only by a role requirement whose role it lacks |
| `Program.AuthorizeMonotone` | SafeVault/Program.cs:15-17 | Being signed in and holding more roles never loses access |
| `Program.Get` | SafeVault/Program.cs:86-106 | A GET answers 405 naming POST iff the path is `/login` up to letter case (mapped only by MapPost); 200 with the endpoint body iff the path matches a GET path up to letter case and that route's requirement permits the caller; every other case is 404 |
| `Program.PublicEndpointOpen` | SafeVault/Program.cs:86-89 | /public answers 200 "This is a public endpoint" to every caller |
| `Program.AuthenticatedEndpointGate` | SafeVault/Program.cs:91-94 | /authenticated answers 200 iff the caller is signed in, whatever its roles, and 404 otherwise |
| `Program.UserEndpointGate` | SafeVault/Program.cs:97-100 | /user answers 200 iff the caller is signed in with role User; an Admin-only caller gets 404 |
| `Program.AdminEndpointGate` | SafeVault/Program.cs:103-106 | /admin answers 200 iff the caller is signed in with role Admin; a User-only caller gets 404 |
| `Program.DenialLooksLikeMissingRoute` | SafeVault/Program.cs:91-106 | A denied request gets the same response (404) as a request for a path mapped for no method |
| `Program.GetOnLoginPathNotAllowed` | SafeVault/Program.cs:64 | A GET on `/login` or `/LOGIN` answers 405 with POST as the allowed method, whoever the caller is |
| `Program.MixedCasePathReachesEndpoint` | SafeVault/Program.cs:103-106 | `GET /Admin` from a signed-in Admin reaches the admin endpoint and answers 200 "This is an admin endpoint" |
| `Program.SeededAccount` | SafeVault/Program.cs:39-43 | The table of seeded accounts: `admin` / `Admin123!` in role Admin and `user` / `User123!` in role User |
| `Program.SessionOf` | SafeVault/Program.cs:54 | The caller that signing in as a seeded account establishes: authenticated, holding exactly the one role the account was added to |
| `Program.SeededCredentialsAccepted` | SafeVault/Program.cs:39-43 | The credentials of both seeded accounts (`admin`/`Admin123!`, `user`/`User123!`) are non-empty and match neither pattern, so they reach sign-in |
| `Program.SeededAccountScenario` | SafeVaultTests/TestAuthorization.cs:39-119 | With a sign-in manager that accepts both seeded accounts' credentials, every status that the authorization tests assert holds, each session holding the role its account was seeded with |

## Left out

- Web host construction, dependency injection, the in-memory EF Core database and middleware registration (SafeVault/Program.cs:6-21, 60-61, 108) are framework plumbing.
- Startup seeding of roles and accounts (SafeVault/Program.cs:23-58) calls the role and user managers asynchronously, and their behaviour is not visible here. What seeding establishes is the account table `SeededAccount` (username, password and role), the requirement on the sign-in manager in `SeededAccountScenario`, and the role a session carries (`SessionOf`). Seeding that fails (`CreateAsync` not succeeding) is not modelled.
- Password hashing, `PasswordSignInAsync`, cookie issuance and session validation belong to the identity library. The sign-in verdict is a function parameter, and the caller's state (`Caller`) is an input.
- The framework turns a denied request into a redirect: an anonymous caller is challenged and sent to `/Account/Login`, and a signed-in caller who lacks the role is forbidden and sent to `/Account/AccessDenied`. Neither path is mapped, so both give 404. Only that observed 404 is modelled; `Decision` still tells the two denials apart.
- Form parsing and HTTP I/O (SafeVault/Program.cs:66-69) are left out. A missing form field reads as the empty string, so `Login` takes plain strings. Null is possible only at the validator's own interface (`NullableString`).
- In the integration tests every test gets its own HTTP client and cookie jar, so each test starts anonymous, while all tests share one server and its in-memory store. The model has no client; each scenario step takes an explicit caller state.
- A general regex engine is out of scope. Only the two fixed patterns are modelled, as substring and span predicates. Regex timeouts do not arise for them.
- Characters are Dafny `char` (Unicode scalar values), not UTF-16 code units. Every character the patterns mention is ASCII, so this does not change any verdict.
- A route guarded by an unregistered policy name makes the framework throw at request time. The route table never uses one, and `RouteRequirement` proves that this case cannot occur.
- RouteOf: folds only ASCII letters when it compares a path with a mapped one. The framework's ordinal case-insensitive comparison also folds some non-ASCII letters, and its other path normalisations (percent-decoding, a trailing slash) are not modelled.

=== FILE: program.dfy ===
/**
 * The request handling of SafeVault's Program.cs that is the service's own logic:
 *   - the POST /login handler, which screens both form fields with the input
 *     validator before it hands them to the sign-in manager;
 *   - the four GET routes, each bound to an authorization requirement through
 *     the two named policies registered at startup, and the response a caller
 *     in a given authentication state observes.
 *
 * The sign-in manager and the caller's authentication state are supplied by the
 * framework; they are parameters here.
 */
module Program {
  import opened ValidationHelpers

  datatype Option<T> = None | Some(value: T)

  // ---------------------------------------------------------------------------
  // Responses

  /**
   * What a handler returns (Results.Ok, BadRequest, Unauthorized), plus the two
   * answers routing gives itself: 404 for a path no endpoint is mapped at, and 405,
   * naming the methods that are mapped, for a path mapped only for other methods.
   */
  datatype Response = Ok(body: string) | BadRequest(body: string) | Unauthorized | NotFound | MethodNotAllowed(allow: string)

  /** The HTTP status line of a response. */
  function StatusCode(r: Response): (code: int)
    ensures code == 200 <==> r.Ok?
    ensures code == 404 <==> r == NotFound
    ensures code == 405 <==> r.MethodNotAllowed?
  {
    match r
    case Ok(_) => 200
    case BadRequest(_) => 400
    case Unauthorized => 401
    case NotFound => 404
    case MethodNotAllowed(_) => 405
  }

  // ---------------------------------------------------------------------------
  // POST /login

  /** The one path mapped for POST. */
  const LoginPath: string := "/login"

  /** The outcome of SignInManager.PasswordSignInAsync, as far as the handler looks at it. */
  datatype SignInResult = Succeeded | Failed

  /** The handler's response, and whether it went as far as calling the sign-in manager. */
  datatype LoginOutcome = LoginOutcome(response: Response, signInAttempted: bool)

  const InvalidInputMessage: string := "Invalid input."
  const LoginSuccessMessage: string := "Login successful"

  /**
   * The /login handler. `username` and `password` are the form fields; a missing
   * field reads as the empty string, never as null. `signIn` stands for the
   * sign-in manager's verdict on a pair of credentials.
   */
  function Login(username: string, password: string, signIn: (string, string) -> SignInResult): (out: LoginOutcome)
    ensures out.signInAttempted <==>
      && |username| > 0 && !SqlPatternOccurs(username) && !TagOccurs(username)
      && |password| > 0 && !SqlPatternOccurs(password) && !TagOccurs(password)
    ensures !out.signInAttempted ==> out.response == BadRequest(InvalidInputMessage)
    ensures out.signInAttempted && signIn(username, password) == Succeeded ==> out.response == Ok(LoginSuccessMessage)
    ensures out.signInAttempted && signIn(username, password) == Failed ==> out.response == Unauthorized
  {
    if !IsValidInput(Str(username)) || !IsValidInput(Str(password)) then
      LoginOutcome(BadRequest(InvalidInputMessage), false)
    else if signIn(username, password) == Succeeded then
      LoginOutcome(Ok(LoginSuccessMessage), true)
    else
      LoginOutcome(Unauthorized, true)
  }

  /**
   * A field the validator rejects ends the request with 400 before the sign-in
   * manager is consulted, so the outcome is the same whatever it would have said.
   */
  lemma InvalidInputShortCircuits(
    username: string, password: string,
    signIn: (string, string) -> SignInResult, otherSignIn: (string, string) -> SignInResult)
    requires !IsValidInput(Str(username)) || !IsValidInput(Str(password))
    ensures Login(username, password, signIn) == Login(username, password, otherSignIn)
    ensures StatusCode(Login(username, password, signIn).response) == 400
    ensures !Login(username, password, signIn).signInAttempted
  {
  }

  /** Login answers 200 exactly when both fields pass the validator and the sign-in succeeds, and 401 when only the sign-in fails. */
  lemma LoginStatus(username: string, password: string, signIn: (string, string) -> SignInResult)
    ensures StatusCode(Login(username, password, signIn).response) == 200 <==>
      IsValidInput(Str(username)) && IsValidInput(Str(password)) && signIn(username, password) == Succeeded
    ensures StatusCode(Login(username, password, signIn).response) == 401 <==>
      IsValidInput(Str(username)) && IsValidInput(Str(password)) && signIn(username, password) == Failed
  {
  }

  /** A SQL-injection username is refused with 400 whatever the password and the credential store. */
  lemma InjectedUsernameRejected(password: string, signIn: (string, string) -> SignInResult)
    ensures Login("'; DROP TABLE Users; --", password, signIn).response == BadRequest(InvalidInputMessage)
  {
    SqlInjectionSampleRejected();
  }

  // ---------------------------------------------------------------------------
  // Roles and authorization policies

  /** The two identity roles the service uses. */
  datatype Role = Admin | User

  function RoleName(r: Role): string {
    match r
    case Admin => "Admin"
    case User => "User"
  }

  /** What a route demands of its caller. */
  datatype Requirement = AllowAnonymous | AuthenticatedUser | InRole(role: Role)

  /**
   * The policies registered by name at startup: "UserRole" requires role User and
   * "AdminRole" requires role Admin; no other name is registered.
   */
  function NamedPolicy(name: string): (policy: Option<Requirement>)
    ensures policy.Some? ==> policy.value.InRole?
    ensures forall r :: policy == Some(InRole(r)) <==> name == RoleName(r) + "Role"
  {
    if name == "UserRole" then Some(InRole(User))
    else if name == "AdminRole" then Some(InRole(Admin))
    else None
  }

  // ---------------------------------------------------------------------------
  // Routes

  /** The four GET endpoints. */
  datatype Route = PublicRoute | AuthenticatedRoute | UserRoute | AdminRoute

  /** How a route is guarded: not at all, by the default policy, or by a policy named in the route table. */
  datatype Guard = Unguarded | DefaultPolicy | PolicyNamed(name: string)

  /** The path each MapGet call maps; none of them is the POST-only login path, in any letter case. */
  function Path(route: Route): (p: string)
    ensures !EqualsIgnoringCase(p, LoginPath)
  {
    match route
    case PublicRoute => "/public"
    case AuthenticatedRoute => "/authenticated"
    case UserRoute => "/user"
    case AdminRoute =>
      assert FoldCase("/admin"[1]) != FoldCase(LoginPath[1]);
      "/admin"
  }

  /** The body each endpoint returns when it is reached. */
  function Body(route: Route): string {
    match route
    case PublicRoute => "This is a public endpoint"
    case AuthenticatedRoute => "This is an authenticated endpoint"
    case UserRoute => "This is a user endpoint"
    case AdminRoute => "This is an admin endpoint"
  }

  /** The guard each MapGet call attaches to its route. */
  function GuardOf(route: Route): Guard {
    match route
    case PublicRoute => Unguarded
    case AuthenticatedRoute => DefaultPolicy
    case UserRoute => PolicyNamed("UserRole")
    case AdminRoute => PolicyNamed("AdminRole")
  }

  /** ASCII case folding: an upper-case letter becomes its lower-case form, any other character is kept. */
  function FoldCase(c: char): char {
    if 'A' <= c <= 'Z' then (c as int + 32) as char else c
  }

  /** Two paths are the same literal route segment when they agree letter by letter up to ASCII case. */
  predicate EqualsIgnoringCase(a: string, b: string) {
    |a| == |b| && forall i :: 0 <= i < |a| ==> FoldCase(a[i]) == FoldCase(b[i])
  }

  /**
   * Routing: the endpoint mapped at `path`, if any. Literal route segments match
   * without regard to case, so `/Admin` reaches the endpoint mapped at `/admin`.
   */
  function RouteOf(path: string): (route: Option<Route>)
    ensures route.Some? ==> EqualsIgnoringCase(path, Path(route.value))
    ensures forall r :: EqualsIgnoringCase(path, Path(r)) ==> route == Some(r)
  {
    if EqualsIgnoringCase(path, "/public") then Some(PublicRoute)
    else if EqualsIgnoringCase(path, "/authenticated") then Some(AuthenticatedRoute)
    else if EqualsIgnoringCase(path, "/user") then Some(UserRoute)
    else if EqualsIgnoringCase(path, "/admin") then Some(AdminRoute)
    else None
  }

  /** Every path that differs from a mapped path only in letter case reaches the same endpoint. */
  lemma RouteOfIgnoresCase(path: string, route: Route)
    requires EqualsIgnoringCase(path, Path(route))
    ensures RouteOf(path) == Some(route)
    ensures RouteOf(Path(route)) == Some(route)
  {
  }

  /**
   * The requirement a route's guard resolves to. The default policy admits any
   * authenticated user; a named guard resolves through the registered policies,
   * and every name the route table uses is registered.
   */
  function RouteRequirement(route: Route): (req: Requirement)
    ensures req == AllowAnonymous <==> route == PublicRoute
    ensures req == AuthenticatedUser <==> route == AuthenticatedRoute
    ensures req == InRole(User) <==> route == UserRoute
    ensures req == InRole(Admin) <==> route == AdminRoute
  {
    match GuardOf(route)
    case Unguarded => AllowAnonymous
    case DefaultPolicy => AuthenticatedUser
    case PolicyNamed(name) =>
      match NamedPolicy(name)
      case Some(policy) => policy
      case None => assert false; AllowAnonymous
  }

  // ---------------------------------------------------------------------------
  // The authorization decision

  /** What the framework knows about the caller of a request: signed in or not, and its roles. */
  datatype Caller = Caller(authenticated: bool, roles: set<Role>)

  datatype Decision = Permit | DenyUnauthenticated | DenyForbidden

  /** Evaluates a requirement against the caller. */
  function Authorize(req: Requirement, caller: Caller): (d: Decision)
    ensures d == DenyUnauthenticated <==> req != AllowAnonymous && !caller.authenticated
    ensures d == DenyForbidden <==> req.InRole? && caller.authenticated && req.role !in caller.roles
  {
    match req
    case AllowAnonymous => Permit
    case AuthenticatedUser => if caller.authenticated then Permit else DenyUnauthenticated
    case InRole(r) =>
      if !caller.authenticated then DenyUnauthenticated
      else if r in caller.roles then Permit
      else DenyForbidden
  }

  /** A caller who is signed in at least where another is, with at least its roles, is permitted at least as much. */
  lemma AuthorizeMonotone(req: Requirement, caller: Caller, stronger: Caller)
    requires caller.authenticated ==> stronger.authenticated
    requires caller.roles <= stronger.roles
    requires Authorize(req, caller) == Permit
    ensures Authorize(req, stronger) == Permit
  {
  }

  /**
   * A GET request as the caller observes it: 405 on the login path, which is
   * mapped only for POST; the endpoint's body when the path's requirement permits
   * the caller; otherwise 404, exactly what an unmapped path gives.
   */
  function Get(path: string, caller: Caller): (r: Response)
    ensures r.Ok? || r == NotFound || r == MethodNotAllowed("POST")
    ensures r.MethodNotAllowed? <==> EqualsIgnoringCase(path, LoginPath)
    ensures r.Ok? <==> exists route :: EqualsIgnoringCase(path, Path(route)) && Authorize(RouteRequirement(route), caller) == Permit
    ensures r.Ok? ==> r.body == Body(RouteOf(path).value)
  {
    if EqualsIgnoringCase(path, LoginPath) then
      assert forall route :: !EqualsIgnoringCase(path, Path(route)) by {
        assert FoldCase(path[1]) == 'l';
      }
      MethodNotAllowed("POST")
    else match RouteOf(path)
    case None => NotFound
    case Some(route) =>
      if Authorize(RouteRequirement(route), caller) == Permit then Ok(Body(route)) else NotFound
  }

  /** /public answers 200 to every caller. */
  lemma PublicEndpointOpen(caller: Caller)
    ensures Get("/public", caller) == Ok("This is a public endpoint")
  {
  }

  /** /authenticated answers 200 to a signed-in caller whatever its roles, and 404 to anyone else. */
  lemma AuthenticatedEndpointGate(caller: Caller)
    ensures StatusCode(Get("/authenticated", caller)) == if caller.authenticated then 200 else 404
  {
  }

  /** /user answers 200 exactly to a signed-in caller in role User; an anonymous or Admin-only caller gets 404. */
  lemma UserEndpointGate(caller: Caller)
    ensures StatusCode(Get("/user", caller)) == if caller.authenticated && User in caller.roles then 200 else 404
    ensures StatusCode(Get("/user", Caller(true, {Admin}))) == 404
  {
  }

  /** /admin answers 200 exactly to a signed-in caller in role Admin; an anonymous or User-only caller gets 404. */
  lemma AdminEndpointGate(caller: Caller)
    ensures StatusCode(Get("/admin", caller)) == if caller.authenticated && Admin in caller.roles then 200 else 404
    ensures StatusCode(Get("/admin", Caller(true, {User}))) == 404
  {
    assert Path(AdminRoute) == "/admin";
  }

  /**
   * A denied request cannot be told apart from a request for a path that is not
   * mapped at all, whether the caller was anonymous or lacked the role.
   */
  lemma DenialLooksLikeMissingRoute(route: Route, caller: Caller, unmapped: string)
    requires Authorize(RouteRequirement(route), caller) != Permit
    requires RouteOf(unmapped) == None
    requires !EqualsIgnoringCase(unmapped, LoginPath)
    ensures Get(Path(route), caller) == Get(unmapped, caller) == NotFound
  {
  }

  /** The mixed-case spelling `/Admin` reaches the admin endpoint, as routing ignores case. */
  lemma MixedCasePathReachesEndpoint()
    ensures RouteOf("/Admin") == Some(AdminRoute)
    ensures Get("/Admin", Caller(true, {Admin})) == Ok("This is an admin endpoint")
  {
  }

  /** A GET on the login path, which is mapped only for POST, answers 405 and names POST, whoever asks. */
  lemma GetOnLoginPathNotAllowed(caller: Caller)
    ensures Get("/login", caller) == MethodNotAllowed("POST")
    ensures StatusCode(Get("/LOGIN", caller)) == 405
  {
  }

  // ---------------------------------------------------------------------------
  // The seeded accounts

  /*
   * At startup the service ensures two accounts exist: `admin` with password
   * `Admin123!` in role Admin, and `user` with password `User123!` in role User.
   * The seeding itself is not modelled; the accounts it creates are the table
   * below, and a session carries the role of the account that signed in.
   */

  /** A caller that has not signed in. */
  const Anonymous: Caller := Caller(false, {})

  /** An account seeded at startup: its credentials and the one role it is added to. */
  datatype Account = Account(username: string, password: string, role: Role)

  /** The seeded account holding `role`. */
  function SeededAccount(role: Role): Account {
    match role
    case Admin => Account("admin", "Admin123!", Admin)
    case User => Account("user", "User123!", User)
  }

  /** The caller that a successful sign-in as `account` establishes: signed in, holding just its role. */
  function SessionOf(account: Account): Caller {
    Caller(true, {account.role})
  }

  /** Both seeded accounts' credentials are non-empty and match neither pattern, so they reach sign-in. */
  lemma SeededCredentialsAccepted(role: Role)
    ensures var a := SeededAccount(role);
      && |a.username| > 0 && !SqlPatternOccurs(a.username) && !TagOccurs(a.username)
      && |a.password| > 0 && !SqlPatternOccurs(a.password) && !TagOccurs(a.password)
  {
    match role
    case Admin =>
      assert !SqlPatternOccurs("admin") by { SqlMatchNeedsLeadCharacter("admin"); }
      assert !SqlPatternOccurs("Admin123!") by { SqlMatchNeedsLeadCharacter("Admin123!"); }
      assert !TagOccurs("admin") by { TagMatchNeedsBrackets("admin"); }
      assert !TagOccurs("Admin123!") by { TagMatchNeedsBrackets("Admin123!"); }
    case User =>
      assert !SqlPatternOccurs("user") by { SqlMatchNeedsLeadCharacter("user"); }
      assert !SqlPatternOccurs("User123!") by { SqlMatchNeedsLeadCharacter("User123!"); }
      assert !TagOccurs("user") by { TagMatchNeedsBrackets("user"); }
      assert !TagOccurs("User123!") by { TagMatchNeedsBrackets("User123!"); }
  }

  /**
   * The authorization tests end to end: given a sign-in manager that accepts the
   * seeded credentials, signing in as `user` gives access to /authenticated and
   * /user but not /admin, and signing in as `admin` gives access to /admin but
   * not /user; without signing in only /public answers.
   */
  lemma SeededAccountScenario(signIn: (string, string) -> SignInResult)
    requires forall role :: signIn(SeededAccount(role).username, SeededAccount(role).password) == Succeeded
    ensures StatusCode(Get("/public", Anonymous)) == 200
    ensures StatusCode(Get("/authenticated", Anonymous)) == 404
    ensures StatusCode(Get("/user", Anonymous)) == 404
    ensures StatusCode(Get("/admin", Anonymous)) == 404
    ensures Login("user", "User123!", signIn).response == Ok(LoginSuccessMessage)
    ensures StatusCode(Get("/authenticated", SessionOf(SeededAccount(User)))) == 200
    ensures StatusCode(Get("/user", SessionOf(SeededAccount(User)))) == 200
    ensures StatusCode(Get("/admin", SessionOf(SeededAccount(User)))) == 404
    ensures Login("admin", "Admin123!", signIn).response == Ok(LoginSuccessMessage)
    ensures StatusCode(Get("/admin", SessionOf(SeededAccount(Admin)))) == 200
    ensures StatusCode(Get("/user", SessionOf(SeededAccount(Admin)))) == 404
  {
    SeededCredentialsAccepted(Admin);
    SeededCredentialsAccepted(User);
    assert signIn(SeededAccount(User).username, SeededAccount(User).password) == Succeeded;
    assert signIn(SeededAccount(Admin).username, SeededAccount(Admin).password) == Succeeded;
    PublicEndpointOpen(Anonymous);
    AuthenticatedEndpointGate(Anonymous);
    AuthenticatedEndpointGate(SessionOf(SeededAccount(User)));
    UserEndpointGate(Anonymous);
    UserEndpointGate(SessionOf(SeededAccount(User)));
    UserEndpointGate(SessionOf(SeededAccount(Admin)));
    AdminEndpointGate(Anonymous);
    AdminEndpointGate(SessionOf(SeededAccount(User)));
    AdminEndpointGate(SessionOf(SeededAccount(Admin)));
  }
}

=== FILE: validation_helpers.dfy ===
/**
 * The input denylist of SafeVault (ValidationHelpers.IsValidInput).
 *
 * A login form field is accepted only when it is a non-null, non-empty string
 * in which neither of two fixed regular expressions matches:
 *   - the SQL-injection pattern  '|;|--|/\*|\*\/|xp_   (six literal alternatives,
 *     compared ordinally, so `xp_` is case-sensitive);
 *   - the tag pattern  <.*?>   (a `<`, then later a `>`, with no line feed between
 *     them, because `.` in a .NET regex matches every character except '\n').
 *
 * Each pattern is given twice: once as a ghost predicate that says where a match
 * is (the meaning of the regex), and once as a left-to-right scan over the input
 * whose verdict, proved equal to the first, is the one Regex.IsMatch gives.
 */
module ValidationHelpers {

  /** A .NET string reference: null, or a sequence of characters. */
  datatype NullableString = Null | Str(chars: string)

  /** The alternatives of the SQL-injection pattern, in the order the regex lists them. */
  const SqlTokens: seq<string> := ["'", ";", "--", "/*", "*/", "xp_"]

  // ---------------------------------------------------------------------------
  // What the two patterns mean

  /** `t` occurs in `s` starting at index `i`. */
  predicate OccursAt(s: string, t: string, i: int) {
    0 <= i && i + |t| <= |s| && s[i..i + |t|] == t
  }

  /** `t` is a substring of `s`. */
  ghost predicate Contains(s: string, t: string) {
    exists i :: OccursAt(s, t, i)
  }

  /** The SQL-injection pattern matches somewhere in `s`. */
  ghost predicate SqlPatternOccurs(s: string) {
    exists t :: t in SqlTokens && Contains(s, t)
  }

  /** The tag pattern `<.*?>` matches the span from `i` to `j` of `s`. */
  predicate TagSpan(s: string, i: int, j: int) {
    && 0 <= i < j < |s|
    && s[i] == '<'
    && s[j] == '>'
    && forall k :: i < k < j ==> s[k] != '\n'
  }

  /** The tag pattern matches somewhere in `s`. */
  ghost predicate TagOccurs(s: string) {
    exists i, j :: TagSpan(s, i, j)
  }

  /** `s` holds a `>` before its first line feed: a `<` seen just before `s` would be closed. */
  ghost predicate ClosesOpenTag(s: string) {
    exists j :: 0 <= j < |s| && s[j] == '>' && forall k :: 0 <= k < j ==> s[k] != '\n'
  }

  // ---------------------------------------------------------------------------
  // How the patterns are matched

  /** One of `alternatives` matches at the very start of `s`, tried in order. */
  function MatchesAnyAtStart(s: string, alternatives: seq<string>): (b: bool)
    ensures b <==> exists t :: t in alternatives && OccursAt(s, t, 0)
  {
    if alternatives == [] then false
    else OccursAt(s, alternatives[0], 0) || MatchesAnyAtStart(s, alternatives[1..])
  }

  /** Regex.IsMatch for the SQL-injection pattern: try every start position from the left. */
  function SqlPatternMatches(s: string): (b: bool)
    ensures b <==> SqlPatternOccurs(s)
    decreases |s|
  {
    if s == [] then
      NothingOccursInEmpty(s);
      false
    else
      SqlOccursCons(s);
      MatchesAnyAtStart(s, SqlTokens) || SqlPatternMatches(s[1..])
  }

  /**
   * Regex.IsMatch for the tag pattern, in one pass: `open` records that a `<`
   * has been seen since the last line feed, so that the next `>` completes a match.
   */
  function TagPatternScan(s: string, open: bool): (b: bool)
    ensures b <==> TagOccurs(s) || (open && ClosesOpenTag(s))
    decreases |s|
  {
    if s == [] then
      false
    else if s[0] == '>' && open then
      true
    else
      TagOccursCons(s);
      ClosesOpenTagCons(s);
      TagPatternScan(s[1..], s[0] == '<' || (open && s[0] != '\n'))
  }

  /** The tag pattern matches `s`, scanned from its start with no `<` pending. */
  function TagPatternMatches(s: string): (b: bool)
    ensures b <==> TagOccurs(s)
  {
    TagPatternScan(s, false)
  }

  /** ValidationHelpers.IsValidInput: null or empty, then the SQL pattern, then the tag pattern. */
  function IsValidInput(input: NullableString): (valid: bool)
    ensures valid <==> && input.Str?
                       && |input.chars| > 0
                       && !SqlPatternOccurs(input.chars)
                       && !TagOccurs(input.chars)
  {
    if input.Null? || input.chars == [] then false
    else if SqlPatternMatches(input.chars) then false
    else if TagPatternMatches(input.chars) then false
    else true
  }

  // ---------------------------------------------------------------------------
  // Lemmas the scanners rest on

  /** No alternative of the SQL pattern is empty, so the empty string never matches. */
  lemma NothingOccursInEmpty(s: string)
    requires s == []
    ensures !SqlPatternOccurs(s)
  {
  }

  /** Dropping the first character shifts every occurrence one place to the left. */
  lemma OccursAtTail(s: string, t: string, i: int)
    requires |s| > 0 && i >= 1
    ensures OccursAt(s, t, i) <==> OccursAt(s[1..], t, i - 1)
  {
  }

  /** A match of the SQL pattern in `s` starts at index 0 or lies in `s[1..]`. */
  lemma SqlOccursCons(s: string)
    requires |s| > 0
    ensures SqlPatternOccurs(s) <==>
      (exists t :: t in SqlTokens && OccursAt(s, t, 0)) || SqlPatternOccurs(s[1..])
  {
    if SqlPatternOccurs(s) {
      var t :| t in SqlTokens && Contains(s, t);
      var i :| OccursAt(s, t, i);
      if i >= 1 {
        OccursAtTail(s, t, i);
        assert Contains(s[1..], t);
      }
    }
    if exists t :: t in SqlTokens && OccursAt(s, t, 0) {
      var t :| t in SqlTokens && OccursAt(s, t, 0);
      assert Contains(s, t);
    }
    if SqlPatternOccurs(s[1..]) {
      var t :| t in SqlTokens && Contains(s[1..], t);
      var i :| OccursAt(s[1..], t, i);
      OccursAtTail(s, t, i + 1);
      assert Contains(s, t);
    }
  }

  /** A tag match in `s` starts at index 0 (a `<` closed later on its line) or lies in `s[1..]`. */
  lemma TagOccursCons(s: string)
    requires |s| > 0
    ensures TagOccurs(s) <==> TagOccurs(s[1..]) || (s[0] == '<' && ClosesOpenTag(s[1..]))
  {
    var r := s[1..];
    if TagOccurs(s) {
      var i, j :| TagSpan(s, i, j);
      if i == 0 {
        assert r[j - 1] == '>' && forall k :: 0 <= k < j - 1 ==> r[k] == s[k + 1];
      } else {
        assert TagSpan(r, i - 1, j - 1);
      }
    }
    if TagOccurs(r) {
      var i, j :| TagSpan(r, i, j);
      assert TagSpan(s, i + 1, j + 1);
    }
    if s[0] == '<' && ClosesOpenTag(r) {
      var j :| 0 <= j < |r| && r[j] == '>' && forall k :: 0 <= k < j ==> r[k] != '\n';
      assert TagSpan(s, 0, j + 1);
    }
  }

  /** A `>` before the first line feed of `s` is its first character or one in `s[1..]`. */
  lemma ClosesOpenTagCons(s: string)
    requires |s| > 0
    ensures ClosesOpenTag(s) <==> s[0] == '>' || (s[0] != '\n' && ClosesOpenTag(s[1..]))
  {
  }

  // ---------------------------------------------------------------------------
  // What the validator accepts and rejects

  /** A null or empty field is rejected before any pattern is tried. */
  lemma NullOrEmptyRejected()
    ensures !IsValidInput(Null)
    ensures !IsValidInput(Str(""))
  {
  }

  /** A field holding a single quote or a semicolon anywhere is rejected. */
  lemma QuoteOrSemicolonRejected(s: string, i: int)
    requires 0 <= i < |s| && (s[i] == '\'' || s[i] == ';')
    ensures SqlPatternOccurs(s)
    ensures !IsValidInput(Str(s))
  {
    var t := [s[i]];
    assert t in SqlTokens && OccursAt(s, t, i);
    assert Contains(s, t);
  }

  // A field holding any alternative of the SQL pattern (`--`, `/*`, `*/`, `xp_`, ...) is rejected.
  lemma SqlTokenRejected(s: string, t: string, i: int)
    requires t in SqlTokens && OccursAt(s, t, i)
    ensures !IsValidInput(Str(s))
  {
  }

  /** A `<` followed later on the same line by a `>` gets the field rejected. */
  lemma TagRejected(s: string, i: int, j: int)
    requires TagSpan(s, i, j)
    ensures !IsValidInput(Str(s))
  {
  }

  /** Every match of the SQL pattern starts with one of six characters. */
  lemma {:induction false} SqlMatchNeedsLeadCharacter(s: string)
    ensures SqlPatternOccurs(s) ==>
      '\'' in s || ';' in s || '-' in s || '/' in s || '*' in s || 'x' in s
  {
    if SqlPatternOccurs(s) {
      var t :| t in SqlTokens && Contains(s, t);
      var i :| OccursAt(s, t, i);
      assert s[i] == t[0];
    }
  }

  /** Every match of the tag pattern holds both a `<` and a `>`. */
  lemma TagMatchNeedsBrackets(s: string)
    ensures TagOccurs(s) ==> '<' in s && '>' in s
  {
  }

  /**
   * Rejection by either pattern survives extension: a field that has a rejected
   * string anywhere inside it is rejected too.
   */
  lemma {:induction false} RejectionSurvivesExtension(s: string, before: string, after: string)
    requires SqlPatternOccurs(s) || TagOccurs(s)
    ensures !IsValidInput(Str(before + s + after))
  {
    var w := before + s + after;
    var n := |before|;
    assert forall k :: 0 <= k < |s| ==> w[n + k] == s[k];
    if SqlPatternOccurs(s) {
      var t :| t in SqlTokens && Contains(s, t);
      var i :| OccursAt(s, t, i);
      assert w[n + i..n + i + |t|] == s[i..i + |t|];
      assert OccursAt(w, t, n + i);
      assert Contains(w, t);
    } else {
      var i, j :| TagSpan(s, i, j);
      assert TagSpan(w, n + i, n + j);
    }
  }

  /** A non-empty field holding no `<` and none of the characters that start an SQL alternative is accepted. */
  lemma PlainFieldAccepted(s: string)
    requires |s| > 0
    requires '\'' !in s && ';' !in s && '-' !in s && '/' !in s && '*' !in s && 'x' !in s
    requires '<' !in s
    ensures IsValidInput(Str(s))
  {
    SqlMatchNeedsLeadCharacter(s);
    TagMatchNeedsBrackets(s);
  }

  /** `xp_` is matched case-sensitively: `XP_` passes where `xp_` is rejected. */
  lemma ExtendedProcedurePrefixIsCaseSensitive()
    ensures !IsValidInput(Str("xp_"))
    ensures IsValidInput(Str("XP_"))
  {
    SqlTokenRejected("xp_", "xp_", 0);
    SqlMatchNeedsLeadCharacter("XP_");
    TagMatchNeedsBrackets("XP_");
  }

  /** A line feed between a `<` and a later `>` keeps the tag pattern from matching. */
  lemma LineFeedBreaksTag()
    ensures IsValidInput(Str("<\n>"))
  {
    assert !SqlPatternOccurs("<\n>") by { SqlMatchNeedsLeadCharacter("<\n>"); }
  }

  /** A `<` never closed, or a `>` that comes before the `<`, does not make a tag. */
  lemma UnmatchedBracketsAccepted()
    ensures IsValidInput(Str("a<b"))
    ensures IsValidInput(Str("a>b<c"))
  {
    assert !SqlPatternOccurs("a<b") by { SqlMatchNeedsLeadCharacter("a<b"); }
    assert !TagOccurs("a<b") by { TagMatchNeedsBrackets("a<b"); }
    assert !SqlPatternOccurs("a>b<c") by { SqlMatchNeedsLeadCharacter("a>b<c"); }
  }

  /** The SQL-injection sample of the validator's tests is rejected. */
  lemma SqlInjectionSampleRejected()
    ensures SqlPatternOccurs("'; DROP TABLE Users; --")
    ensures !IsValidInput(Str("'; DROP TABLE Users; --"))
  {
    QuoteOrSemicolonRejected("'; DROP TABLE Users; --", 0);
  }

  /** The cross-site-scripting sample of the validator's tests matches both patterns, so it is rejected. */
  lemma XssSampleRejected()
    ensures TagOccurs("<script>alert('XSS');</script>")
    ensures SqlPatternOccurs("<script>alert('XSS');</script>")
    ensures !IsValidInput(Str("<script>alert('XSS');</script>"))
  {
    var s := "<script>alert('XSS');</script>";
    assert TagSpan(s, 0, 7);
    QuoteOrSemicolonRejected(s, 14);
  }
}
